=== FILE: README.md ===
# ScrapLink forms — a verified model of the client-side input rules

ScrapLink is a web client for a scrap-collection marketplace. Customers sell
scrap, and collectors pick it up. Most of the client only renders data from
the server. The logic it owns sits in three form components, and this project
models that logic as pure Dafny functions over strings and sequences:

- **Registration wizard** (`Register`, `register.dfy`). This is a two-step
  machine: basic information, then address and business details. The role
  comes from the query string only if the value is on the whitelist. Each
  field handler changes only the named field. The ID-proof upload is
  size-gated. The step-1 and step-2 validators depend on the role and report
  the first check that fails. "Next" moves from step 1 to step 2, or submits
  from step 2. "Previous" goes back.
- **OTP login** (`Login`, `login.dfy`). This form has a phone stage and an
  OTP stage. Phone input is sanitised to at most ten digits. A
  mobile-number guard runs before the OTP is requested, and a length-6 guard
  runs before the code is verified. A verified user is redirected to the
  dashboard of their role. The six OTP boxes are written through
  `split`/assign/`join`. "Resend OTP" and "Change Number" are modelled too,
  as is the submit-enable condition.
- **Scrap request form** (`Scrap`, `scrap_request.dfy`). The weight filter is
  `^\d*\.?\d*$`. The image list holds at most five images, filtered by type
  and size, with new images appended in order and removal by index. A
  required-field guard runs before submission.

The shared pieces are in three modules:

- `Common`: roles, files, the reply of a remote call, and subsequences.
- `Text`: JavaScript `trim`, `\d` and `replace(/\D/g, '')`.
- `Patterns`: the three regular expressions, written as predicates with
  character-level characterisations.

Each form module (`Register`, `Login`, `Scrap`) also holds a small state machine. An `Event` datatype lists what
the page offers, an `Apply` function performs it, and an `ApplyKeepsValid`
lemma proves an invariant of every reachable state:

- For the wizard, the step stays in 1..2 and a stored ID proof is within the
  limit.
- For login, the phone is always sanitised, and the OTP stage holds only a
  number that passed the guard.
- For the scrap form, there are at most five images, all of them acceptable,
  and the weight always matches the pattern.

Asynchronous calls are modelled atomically. The server's answer (`Reply`) is
a parameter, and every handler returns the request it would send (or none)
and the route it would navigate to.

Some behaviour of the code as written is kept faithfully:

- An OTP box written past the end of the current code appends to the code.
  Clearing a box shifts the later characters left.
- The weight filter's explicit `value === ''` check is redundant, because the
  pattern accepts the empty string.
- A lone `.` passes both the weight filter and the submit guard.
- The scrap form's submit guard does not trim, so a value of only spaces
  counts as filled.

## Model

| member | source | states |
|---|---|---|
| Text.BlankIffAllTrimmable | src/components/Auth/RegisterForm.jsx:101-104 | `!s.trim()` holds exactly when every character of `s` is JavaScript whitespace or a line terminator |
| Text.Trim | src/components/Auth/RegisterForm.jsx:101 | the trimmed text is a contiguous piece of the input that neither starts nor ends with whitespace, and every character cut away on either side is whitespace |
| Text.KeepDigits | src/components/Auth/LoginForm.jsx:127 | stripping `\D` leaves only ASCII digits, taken in order from the input (a subsequence); a result as long as the input is the input itself |
| Text.KeepDigitsAppend | src/components/Auth/LoginForm.jsx:127 | stripping non-digits from a concatenation gives the concatenation of the stripped parts |
| Text.KeepDigitsOfDigits | src/components/Auth/LoginForm.jsx:127 | stripping non-digits leaves a string unchanged exactly when the string is all digits |
| Login.SanitizePhone | src/components/Auth/LoginForm.jsx:127 | the sanitised phone is all digits, at most 10 long, and a prefix of the input's digits; it holds all of them unless it reached 10 |
| Login.SanitizeIdempotent | src/components/Auth/LoginForm.jsx:127 | sanitising twice gives the same phone as sanitising once |
| Login.SanitizeFixedPoints | src/components/Auth/LoginForm.jsx:127 | the sanitiser leaves a string unchanged exactly when it is at most ten digits |
| Patterns.MobileNumberIff | src/components/Auth/RegisterForm.jsx:94 | `^[6-9]\d{9}$` accepts exactly the ten-digit strings whose first digit is at least 6 |
| Patterns.DecimalIff | src/components/Scrap/ScrapRequestForm.jsx:47 | `^\d*\.?\d*$` accepts exactly the strings of digits and dots that contain no two dots |
| Patterns.DecimalAcceptsEmpty | src/components/Scrap/ScrapRequestForm.jsx:47 | the weight pattern accepts the empty string |
| Register.RoleFromQuery | src/components/Auth/RegisterForm.jsx:17-23 | the role changes only to a role whose exact name is the query value; `customer` and `collector` are adopted; anything else keeps the role |
| Register.ChangeCustomer | src/components/Auth/RegisterForm.jsx:53-56 | the named customer field takes the value; every other customer field is unchanged |
| Register.ChangeCollector | src/components/Auth/RegisterForm.jsx:58-61 | the named collector field takes the value; every other field and the ID proof are unchanged |
| Register.AttachIdProof | src/components/Auth/RegisterForm.jsx:63-70 | a present file of at most 5·1024·1024 bytes becomes the ID proof; otherwise the record is unchanged and the size error is shown; only the ID proof or the error changes |
| Register.Step1PassesIff | src/components/Auth/RegisterForm.jsx:93-120 | step 1 passes exactly when the role's phone is ten ASCII digits starting at 6 or above and the name (and a collector's business name) has a non-whitespace character |
| Register.Step1FirstFailure | src/components/Auth/RegisterForm.jsx:105-118 | the checks report in the order phone, name, business name; the first failure's message is the result |
| Register.Step2PassesIff | src/components/Auth/RegisterForm.jsx:122-159 | step 2 passes exactly when address and city have visible text and the pincode is six digits; a collector also needs a non-empty vehicle type and a service area with visible text |
| Register.NextStep | src/components/Auth/RegisterForm.jsx:161-168 | from step 1, moves to step 2 exactly when step 1 validates, else shows its message; submits the role's record exactly when at step 2 and step 2 validates, and then the banner is cleared on success or shows the failure; data and role are unchanged; the step stays in 1..2 |
| Register.PreviousStep | src/components/Auth/RegisterForm.jsx:170-173 | offered only past step 1, it goes back one step (never below 1) and clears the error |
| Register.NextThenPrevious | src/components/Auth/RegisterForm.jsx:161-173 | "Next" from a valid step 1 followed by "Previous" restores the form with the error cleared |
| Register.PreviousThenNext | src/components/Auth/RegisterForm.jsx:161-173 | "Previous" from step 2 followed by "Next" returns to step 2 without submitting |
| Register.Submit | src/components/Auth/RegisterForm.jsx:175-190 | posts the selected role's record; clears the error on success, shows the error message on failure; nothing else changes |
| Register.SubmitAsWritten | src/components/Auth/RegisterForm.jsx:175-190 | as written, a customer is posted but a collector never is: the banner shows the TypeError from the missing `registerCollector` |
| Register.CollectorSignupNeverSent | src/components/Auth/RegisterForm.jsx:180-186 | for a collector, the as-written submit sends nothing while the corrected one sends the collector record |
| Register.ApplyKeepsValid | src/components/Auth/RegisterForm.jsx:527-546 | from the start state, every event the page offers keeps the step in 1..2 and the ID proof within the limit; only "Next" at step 2 submits |
| Login.SendOtp | src/components/Auth/LoginForm.jsx:16-34 | a phone failing `^[6-9]\d{9}$` only sets the error (no call, stage unchanged); otherwise login is called with phone and role, and the stage becomes `otp` only when it succeeds; the error is the failure's message |
| Login.VerifyOtp | src/components/Auth/LoginForm.jsx:36-60 | the code is checked exactly when it has length 6; otherwise only the error is set; a redirect happens exactly on a successful check, and its target is the selected role's dashboard |
| Login.VerifiedRedirect | src/components/Auth/LoginForm.jsx:49-54 | after a successful verification, a customer goes to `/dashboard/customer` and a collector to `/dashboard/collector` |
| Login.OtpChange | src/components/Auth/LoginForm.jsx:62-65 | writing `value` at a box inside the code replaces that one character; writing at or past the end appends `value` |
| Login.OtpBoxWrite | src/components/Auth/LoginForm.jsx:62-65 | one character written at an index inside the code changes only that position and keeps the length |
| Login.OtpBoxShift | src/components/Auth/LoginForm.jsx:62-65 | clearing a box shortens the code by one, and writing past the end appends (typing 7 in box 3 of an empty code gives "7") |
| Login.EnabledVersusGuards | src/components/Auth/LoginForm.jsx:135-188 | the button is never enabled while loading. In the OTP stage it is enabled exactly when the verify guard passes. In the phone stage a sent request implies it was enabled; for a digit-only phone, an enabled button leads to a request exactly when the first digit is at least 6 |
| Login.EnabledButRefused | src/components/Auth/LoginForm.jsx:20-23 | `0123456789` enables "Send OTP" and is then refused by the guard |
| Login.ResendOtp | src/components/Auth/LoginForm.jsx:150-159 | resending makes the same call as sending; the banner reads "OTP resent successfully" unless a valid number's request failed, when it shows the failure; it never navigates |
| Login.ResendAlwaysRequests | src/components/Auth/LoginForm.jsx:150-159 | in a reachable OTP stage, resending always requests a new code for the same phone and role |
| Login.ApplyKeepsValid | src/components/Auth/LoginForm.jsx:86-197 | every offered event keeps the phone sanitised and the OTP stage's number valid; the OTP stage is entered only by a successful send; "Change Number" returns to the phone stage |
| Scrap.ChangeField | src/components/Scrap/ScrapRequestForm.jsx:40-43 | the named field takes the value; the other fields, weight, images and error are unchanged |
| Scrap.ChangeWeight | src/components/Scrap/ScrapRequestForm.jsx:45-50 | only the weight can change; it becomes the new text or stays; a weight matching the pattern keeps matching |
| Scrap.WeightAcceptedIff | src/components/Scrap/ScrapRequestForm.jsx:45-50 | a weight edit is taken exactly when the new text is digits with at most one dot (or equals the current weight) |
| Scrap.Rejection | src/components/Scrap/ScrapRequestForm.jsx:58-71 | a file is kept exactly when its type is `image/jpeg`, `image/png` or `image/jpg` and its size is at most 5 MB |
| Scrap.AcceptedImages | src/components/Scrap/ScrapRequestForm.jsx:58-71 | the filter keeps exactly the acceptable files, each as many times as it was picked, in their original order |
| Scrap.BannerAfterFilter | src/components/Scrap/ScrapRequestForm.jsx:58-71 | the error is unchanged when every file is acceptable, and is otherwise one of the two filter messages |
| Scrap.BannerIsLastRejection | src/components/Scrap/ScrapRequestForm.jsx:58-71 | when a file is rejected, the error is the message for the last rejected file |
| Scrap.SliceTo | src/components/Scrap/ScrapRequestForm.jsx:55 | `slice(0, end)` is a prefix of length `end` capped at the list, or counted from the back for a negative end |
| Scrap.UploadImages | src/components/Scrap/ScrapRequestForm.jsx:52-77 | the old images are a prefix of the result, and from at most 5 the result has at most 5. Every new image is acceptable, and the new images form a subsequence of the first `5 − count` picked files (`slice(0, 5 − count)`), so a rejected file still uses up a slot. Each acceptable file among the first `5 − count` is added, as many times as it was picked, and no other file is. The banner is decided only by the files in that window: the last rejected one's message, or unchanged when none is rejected. Only images and error change |
| Scrap.RemoveImage | src/components/Scrap/ScrapRequestForm.jsx:79-84 | removing index `i` in range yields the list without element `i`; an index out of range changes nothing |
| Scrap.RemoveImageShape | src/components/Scrap/ScrapRequestForm.jsx:79-84 | an in-range removal shortens the list by one and shifts only the later images down by one |
| Scrap.Submit | src/components/Scrap/ScrapRequestForm.jsx:105-140 | posts exactly when weight, description and address are non-empty and a category exists. The request carries the form's contents. A missing field shows the required-fields error. A missing category throws before sending and shows the generic failure. Success goes to `/dashboard`; failure shows the server message, or the generic one |
| Scrap.SubmitAsWritten | src/components/Scrap/ScrapRequestForm.jsx:105-140 | as written, nothing is ever posted: an incomplete form shows the required-fields error and a complete one the generic failure |
| Scrap.ScrapRequestNeverSent | src/components/Scrap/ScrapRequestForm.jsx:130-136 | a complete form is posted by the corrected submit and never by the as-written one |
| Scrap.ApplyKeepsValid | src/components/Scrap/ScrapRequestForm.jsx:204-226 | every offered event keeps at most five images, all acceptable, and a weight matching the pattern |

## Findings

| source | as written | input that shows it | evidently intended | confidence | as-written member | corrected member |
|---|---|---|---|---|---|---|
| src/components/Auth/RegisterForm.jsx:183 | calls `registerCollector` from the auth context, but `src/context/AuthContext.jsx:79-87` provides no such function, so the call throws a TypeError | role collector, both steps valid, "Create Account": the banner shows the TypeError's message ("registerCollector is not a function" in an unminified V8 build) and nothing is posted | post the collector record, as `authAPI.registerCollector` in `src/services/api.js:42` does | high, not executed | Register.SubmitAsWritten | Register.Submit |
| src/components/Scrap/ScrapRequestForm.jsx:130 | posts through `scrapAPI.post`, which `src/services/api.js:45-50` does not define, so the call throws before any request | weight "2", description "papers", address "MG Road", any category: the banner reads "Failed to create scrap request" and nothing is posted | post the form data through the API client | high, not executed | Scrap.SubmitAsWritten | Scrap.Submit |

The `NextStep` and `Apply` functions of the model use the corrected `Submit`; see "## Left out".

## Left out

- Geolocation (`getCurrentLocation` in both the wizard and the scrap form) and the `location` fields: these are browser callbacks with floating-point coordinates.
- The scrap form's estimated price (`parseFloat(weight) × price_per_kg`): floating point.
- `FormData` and multipart encoding, `URL.createObjectURL` previews, and focus handling in the OTP boxes: these are DOM and browser services.
- The authentication context and the API client (`localStorage`, axios headers and interceptors, the 401 redirect): each remote call is replaced by a `Reply` parameter. The error message they rethrow is that reply's message.
- `URLSearchParams` parsing: the `role` query value is given as an optional string.
- The `loading` flag: handlers are atomic, so a second click while a call is pending is not modelled. The flag appears only as a parameter of `Login.SubmitEnabled`.
- The browser-enforced `maxLength` attributes (phone 10, pincode 6, one character per OTP box). `Login.OtpBoxWrite` assumes a one-character value; the other lemmas do not.
- String lengths and indices: JavaScript counts UTF-16 code units, and the model counts Unicode scalar values. The two differ only for characters outside the Basic Multilingual Plane. This affects the OTP length check and `handleOtpChange`, whose `otp.split('')` and `newOtp[index]` work on code units: a box write next to such a character can split a surrogate pair in JavaScript but not in `Login.OtpChange`. Sanitised phones are ASCII. Pincodes are not sanitised, and only those that `/^\d{6}$/` accepts are guaranteed ASCII.
- Field names outside each form's inputs: `[name]: value` could add any key, but only the rendered inputs' names can reach the handlers, so fields are an enumeration.
- The "Complete" step-3 indicator: the code never sets step 3.
- The dashboards, header, footer, home and auth pages, routing, and the static category data: presentational only; the dashboards only render server data.
- Scrap.BannerAfterFilter: its own contract says only that the error is unchanged or one of the two messages. Which message it is (the last rejected file's) is proved separately in `Scrap.BannerIsLastRejection`.
- Register.NextStep: from a valid step 2 it submits through the corrected `Register.Submit`, so for a collector it sends the collector record, which the code as written never sends (it throws first; see `Register.SubmitAsWritten`). The same holds for `Register.ApplyKeepsValid`, and `Scrap.ApplyKeepsValid` likewise submits through the corrected `Scrap.Submit` rather than `Scrap.SubmitAsWritten`.
- The `required` attributes on the scrap form's weight, description and address inputs: the browser refuses an empty one before `handleSubmit` runs. `Scrap.Submit`'s required-fields branch is therefore the handler's own behaviour, not what a user normally sees, like `maxLength` above.
- Register.NoRegisterCollectorMessage: the TypeError's message depends on the engine and the build. JavaScriptCore words it differently, and a minified build renames the function. The constant stands for that text, using V8's wording for an unminified build.

=== FILE: common.dfy ===
/**
 Datatypes shared by the three form components: the two account roles, an
 uploaded file as the browser describes it, and the reply of a remote call.
 */
module Common {

  datatype Option<+T> = None | Some(value: T)

  /** The two kinds of account. */
  datatype Role = Customer | Collector

  /** The spelling of a role in query strings, request bodies and routes. */
  function RoleName(role: Role): string
  {
    match role
    case Customer => "customer"
    case Collector => "collector"
  }

  /** A file picked in an `<input type="file">`: its MIME type and its size in bytes. */
  datatype File = File(name: string, mimeType: string, size: nat)

  /** Every upload limit in the forms is five mebibytes. */
  const MaxUploadBytes: nat := 5 * 1024 * 1024

  /**
   How an awaited remote call ended: it resolved, or it rejected with an
   error whose message the form displays.
   */
  datatype Reply = Accepted | Refused(message: string)

  /** The error banner once an awaited call has settled: cleared before the call, set by the `catch`. */
  function ReplyError(reply: Reply): string
  {
    if reply.Accepted? then "" else reply.message
  }

  /** `xs` can be obtained from `ys` by deleting elements: the order is kept. */
  predicate IsSubsequence<T(==)>(xs: seq<T>, ys: seq<T>)
    decreases ys
  {
    xs == [] || (ys != [] && if xs[0] == ys[0] then IsSubsequence(xs[1..], ys[1..]) else IsSubsequence(xs, ys[1..]))
  }
}

=== FILE: login.dfy ===
/**
 The OTP login form: a two-stage machine. In the phone stage the user picks
 a role and types a phone number, and "Send OTP" asks the server for a code;
 in the OTP stage the user types the six-character code into six boxes and
 "Verify OTP" checks it and redirects to the role's dashboard.
 */
module Login {
  import opened Common
  import opened Text
  import opened Patterns

  /** The phone input's `onChange`: keep the digits, then at most the first ten of them. */
  function SanitizePhone(raw: string): (r: string)
    ensures AllDigits(r) && |r| <= 10
    ensures |r| <= |KeepDigits(raw)| && r == KeepDigits(raw)[..|r|]
    ensures |r| == 10 || r == KeepDigits(raw)
  {
    Take(KeepDigits(raw), 10)
  }

  /** Sanitising a sanitised phone changes nothing. */
  lemma SanitizeIdempotent(raw: string)
    ensures SanitizePhone(SanitizePhone(raw)) == SanitizePhone(raw)
  {
    KeepDigitsOfDigits(SanitizePhone(raw));
  }

  /** The strings the sanitiser leaves alone are exactly those of at most ten digits. */
  lemma SanitizeFixedPoints(s: string)
    ensures SanitizePhone(s) == s <==> AllDigits(s) && |s| <= 10
  {
    KeepDigitsOfDigits(s);
  }

  datatype Stage = PhoneStage | OtpStage

  /** The form's state (the `loading` flag is only true while a call is awaited, see `SubmitEnabled`). */
  datatype LoginForm = LoginForm(phone: string, role: Role, otp: string, stage: Stage, error: string)

  const Start := LoginForm("", Customer, "", PhoneStage, "")

  /** The two calls the form makes into the authentication context. */
  datatype Call = RequestOtp(phone: string, role: Role) | CheckOtp(phone: string, code: string)

  /** The form after a handler, the call it made, and where it navigated. */
  datatype Outcome = Outcome(form: LoginForm, call: Option<Call>, redirect: Option<string>)

  const ShortOtpMessage := "Please enter 6-digit OTP"
  const ResentMessage := "OTP resent successfully"

  /**
   `handleSendOTP`: a phone that fails the mobile-number pattern only sets
   the banner; otherwise the OTP is requested, and the stage becomes the OTP
   stage only if the request succeeds.
   */
  function SendOtp(f: LoginForm, reply: Reply): (r: Outcome)
    ensures !IsMobileNumber(f.phone) ==> r == Outcome(f.(error := MobileNumberMessage), None, None)
    ensures IsMobileNumber(f.phone) ==> r.call == Some(RequestOtp(f.phone, f.role))
    ensures IsMobileNumber(f.phone) ==> r.form.error == ReplyError(reply)
    ensures r.form.stage == OtpStage <==> f.stage == OtpStage || (IsMobileNumber(f.phone) && reply.Accepted?)
    ensures r.form.(stage := f.stage, error := f.error) == f
    ensures r.redirect.None?
  {
    if !IsMobileNumber(f.phone) then
      Outcome(f.(error := MobileNumberMessage), None, None)
    else
      var stage := if reply.Accepted? then OtpStage else f.stage;
      Outcome(f.(stage := stage, error := ReplyError(reply)), Some(RequestOtp(f.phone, f.role)), None)
  }

  /** Where a verified user lands. */
  function DashboardPath(role: Role): (path: string)
  {
    match role
    case Customer => "/dashboard/customer"
    case Collector => "/dashboard/collector"
  }

  /**
   `handleVerifyOTP`: a code whose length is not six only sets the banner;
   otherwise the code is checked, and on success the user is sent to the
   dashboard of the selected role.
   */
  function VerifyOtp(f: LoginForm, reply: Reply): (r: Outcome)
    ensures r.call.Some? <==> |f.otp| == 6
    ensures r.call.Some? ==> r.call.value == CheckOtp(f.phone, f.otp)
    ensures |f.otp| != 6 ==> r.form.error == ShortOtpMessage
    ensures |f.otp| == 6 ==> r.form.error == ReplyError(reply)
    ensures r.redirect.Some? <==> |f.otp| == 6 && reply.Accepted?
    ensures r.redirect.Some? ==> r.redirect.value == DashboardPath(f.role)
    ensures r.form.(error := f.error) == f
  {
    if |f.otp| != 6 then
      Outcome(f.(error := ShortOtpMessage), None, None)
    else
      var target := if reply.Accepted? then Some(DashboardPath(f.role)) else None;
      Outcome(f.(error := ReplyError(reply)), Some(CheckOtp(f.phone, f.otp)), target)
  }

  /** A successful verification redirects a customer to `/dashboard/customer` and a collector to `/dashboard/collector`. */
  lemma VerifiedRedirect(f: LoginForm)
    requires |f.otp| == 6
    ensures f.role == Customer ==> VerifyOtp(f, Accepted).redirect == Some("/dashboard/customer")
    ensures f.role == Collector ==> VerifyOtp(f, Accepted).redirect == Some("/dashboard/collector")
  {
  }

  /**
   The OTP boxes' `onChange`, as the code computes it: split the code into an
   array of one-character strings, assign `value` at `index` (an index past
   the end grows the array, leaving holes), and join, where holes vanish.
   */
  function OtpChange(otp: string, index: nat, value: string): (r: string)
    ensures index < |otp| ==> r == otp[..index] + value + otp[index + 1..]
    ensures index >= |otp| ==> r == otp + value
  {
    if index < |otp| then
      JoinWithin(otp, index, value);
      Join(Assign(Split(otp), index, value))
    else
      JoinBeyond(otp, index, value);
      Join(Assign(Split(otp), index, value))
  }

  lemma JoinWithin(otp: string, index: nat, value: string)
    requires index < |otp|
    ensures Join(Assign(Split(otp), index, value)) == otp[..index] + value + otp[index + 1..]
  {
    var cells := Split(otp);
    var tail := [Some(value)] + cells[index + 1..];
    assert Assign(cells, index, value) == cells[..index] + tail;
    assert cells[..index] == Split(otp[..index]);
    assert cells[index + 1..] == Split(otp[index + 1..]);
    JoinAppend(cells[..index], tail);
    JoinAppend([Some(value)], cells[index + 1..]);
    JoinSingle(value);
    JoinSplit(otp[..index]);
    JoinSplit(otp[index + 1..]);
  }

  lemma JoinBeyond(otp: string, index: nat, value: string)
    requires index >= |otp|
    ensures Join(Assign(Split(otp), index, value)) == otp + value
  {
    var cells := Split(otp);
    var holes := Holes(index - |otp|);
    assert Assign(cells, index, value) == (cells + holes) + [Some(value)];
    JoinAppend(cells + holes, [Some(value)]);
    JoinAppend(cells, holes);
    JoinHoles(index - |otp|);
    JoinSplit(otp);
    JoinSingle(value);
  }

  lemma JoinSingle(value: string)
    ensures Join([Some(value)]) == value
  {
    assert [Some(value)][..0] == [];
  }

  /** `s.split('')`. */
  function Split(s: string): (cells: seq<Option<string>>)
    ensures |cells| == |s|
    ensures forall i :: 0 <= i < |s| ==> cells[i] == Some([s[i]])
  {
    seq(|s|, i requires 0 <= i < |s| => Some([s[i]]))
  }

  /** The empty slots a JavaScript array grows by when assigned past its end. */
  function Holes(n: nat): (cells: seq<Option<string>>)
    ensures |cells| == n
  {
    seq(n, _ => None)
  }

  /** `cells[index] = value` on a JavaScript array. */
  function Assign(cells: seq<Option<string>>, index: nat, value: string): (r: seq<Option<string>>)
    ensures |r| == if index < |cells| then |cells| else index + 1
    ensures r[index] == Some(value)
  {
    if index < |cells| then cells[index := Some(value)]
    else cells + Holes(index - |cells|) + [Some(value)]
  }

  /** `cells.join('')`: holes contribute nothing. */
  function Join(cells: seq<Option<string>>): string
  {
    if cells == [] then ""
    else
      var last := cells[|cells| - 1];
      Join(cells[..|cells| - 1]) + (if last.Some? then last.value else "")
  }

  lemma {:induction false} JoinAppend(a: seq<Option<string>>, b: seq<Option<string>>)
    ensures Join(a + b) == Join(a) + Join(b)
    decreases |b|
  {
    if b != [] {
      assert (a + b)[..|a + b| - 1] == a + b[..|b| - 1];
      JoinAppend(a, b[..|b| - 1]);
    } else {
      assert a + b == a;
    }
  }

  lemma {:induction false} JoinSplit(s: string)
    ensures Join(Split(s)) == s
  {
    if s != [] {
      assert Split(s)[..|s| - 1] == Split(s[..|s| - 1]);
      JoinSplit(s[..|s| - 1]);
      assert s[..|s| - 1] + [s[|s| - 1]] == s;
    }
  }

  lemma {:induction false} JoinHoles(n: nat)
    ensures Join(Holes(n)) == ""
  {
    if n > 0 {
      assert Holes(n)[..n - 1] == Holes(n - 1);
      JoinHoles(n - 1);
    }
  }

  /**
   Typing one character into a box inside the code replaces exactly that
   character: the length and every other position are unchanged.
   */
  lemma OtpBoxWrite(otp: string, index: nat, value: string)
    requires index < |otp| && |value| == 1
    ensures |OtpChange(otp, index, value)| == |otp|
    ensures OtpChange(otp, index, value)[index] == value[0]
    ensures forall j :: 0 <= j < |otp| && j != index ==> OtpChange(otp, index, value)[j] == otp[j]
  {
  }

  /**
   Clearing a box inside the code deletes that character, and writing into a
   box past the end appends: the boxes do not keep their positions.
   */
  lemma OtpBoxShift(otp: string, index: nat, value: string)
    ensures index < |otp| && value == "" ==> |OtpChange(otp, index, value)| == |otp| - 1
    ensures index >= |otp| ==> OtpChange(otp, index, value) == otp + value
    ensures OtpChange("", 3, "7") == "7"
  {
  }

  /** The submit button is enabled when not loading and the stage's input has its full length. */
  predicate SubmitEnabled(f: LoginForm, loading: bool)
  {
    !loading && if f.stage == PhoneStage then |f.phone| == 10 else |f.otp| == 6
  }

  /**
   In the OTP stage the button is enabled exactly when the verify guard
   passes. In the phone stage the guard is stricter: an enabled button can
   still be refused when the number starts with 0 to 5.
   */
  lemma EnabledVersusGuards(f: LoginForm, reply: Reply)
    ensures f.stage == OtpStage ==> (SubmitEnabled(f, false) <==> VerifyOtp(f, reply).call.Some?)
    ensures f.stage == PhoneStage && SendOtp(f, reply).call.Some? ==> SubmitEnabled(f, false)
    ensures f.stage == PhoneStage && AllDigits(f.phone) && SubmitEnabled(f, false) ==>
              (SendOtp(f, reply).call.Some? <==> f.phone[0] >= '6')
  {
    MobileNumberIff(f.phone);
  }

  /** A concrete phone that enables "Send OTP" and is then refused by the guard. */
  lemma EnabledButRefused(reply: Reply)
    ensures SubmitEnabled(Start.(phone := "0123456789"), false)
    ensures SendOtp(Start.(phone := "0123456789"), reply).call.None?
  {
  }

  /**
   "Resend OTP": runs `handleSendOTP` and then sets the success banner, which
   only a failed request, reported after the await, overrides.
   */
  function ResendOtp(f: LoginForm, reply: Reply): (r: Outcome)
    ensures r.call == SendOtp(f, reply).call
    ensures r.form.stage == SendOtp(f, reply).form.stage
    ensures r.form.error == if IsMobileNumber(f.phone) && reply.Refused? then reply.message else ResentMessage
    ensures r.redirect.None?
    ensures r.form.(stage := f.stage, error := f.error) == f
  {
    var sent := SendOtp(f, reply);
    var banner := if sent.call.Some? && reply.Refused? then reply.message else ResentMessage;
    Outcome(sent.form.(error := banner), sent.call, None)
  }

  /**
   The phone only ever holds sanitised input, and the OTP stage is only
   reached with a number that passed the mobile-number pattern.
   */
  predicate Valid(f: LoginForm)
  {
    && AllDigits(f.phone) && |f.phone| <= 10
    && (f.stage == OtpStage ==> IsMobileNumber(f.phone))
  }

  datatype Event =
    | TypePhone(raw: string)
    | PickRole(role: Role)
    | SendCode(reply: Reply)
    | TypeOtpBox(index: nat, value: string)
    | VerifyCode(reply: Reply)
    | ResendCode(reply: Reply)
    | ChangeNumber

  /** The events the rendered stage offers; a disabled submit button submits nothing. */
  predicate Offered(f: LoginForm, e: Event)
  {
    match e
    case TypePhone(_) => f.stage == PhoneStage
    case PickRole(_) => f.stage == PhoneStage
    case SendCode(_) => f.stage == PhoneStage && SubmitEnabled(f, false)
    case TypeOtpBox(index, _) => f.stage == OtpStage && index < 6
    case VerifyCode(_) => f.stage == OtpStage && SubmitEnabled(f, false)
    case ResendCode(_) => f.stage == OtpStage
    case ChangeNumber => f.stage == OtpStage
  }

  function Apply(f: LoginForm, e: Event): Outcome
    requires Offered(f, e)
  {
    match e
    case TypePhone(raw) => Outcome(f.(phone := SanitizePhone(raw)), None, None)
    case PickRole(role) => Outcome(f.(role := role), None, None)
    case SendCode(reply) => SendOtp(f, reply)
    case TypeOtpBox(index, value) => Outcome(f.(otp := OtpChange(f.otp, index, value)), None, None)
    case VerifyCode(reply) => VerifyOtp(f, reply)
    case ResendCode(reply) => ResendOtp(f, reply)
    case ChangeNumber => Outcome(f.(stage := PhoneStage), None, None)
  }

  /**
   The form starts valid and every offered event keeps it valid; the stage
   becomes the OTP stage only through a successful OTP request, and
   "Change Number" always returns to the phone stage.
   */
  lemma ApplyKeepsValid(f: LoginForm, e: Event)
    requires Valid(f) && Offered(f, e)
    ensures Valid(Start)
    ensures Valid(Apply(f, e).form)
    ensures f.stage == PhoneStage && Apply(f, e).form.stage == OtpStage ==>
              e.SendCode? && e.reply.Accepted? && Apply(f, e).call == Some(RequestOtp(f.phone, f.role))
    ensures e.ChangeNumber? ==> Apply(f, e).form.stage == PhoneStage
  {
  }

  /** In a reachable OTP stage the number is valid, so "Resend OTP" always requests a new code. */
  lemma ResendAlwaysRequests(f: LoginForm, reply: Reply)
    requires Valid(f) && f.stage == OtpStage
    ensures ResendOtp(f, reply).call == Some(RequestOtp(f.phone, f.role))
    ensures ResendOtp(f, reply).form.error == ReplyError(reply) || reply.Accepted?
  {
  }
}

=== FILE: patterns.dfy ===
/**
 The three regular expressions the forms match input against, written as
 predicates over characters. None of them carries the `m` flag, so `^` and
 `$` anchor at the ends of the whole string.
 */
module Patterns {
  import opened Text

  /** `/^[6-9]\d{9}$/`: a ten-digit Indian mobile number. */
  predicate IsMobileNumber(s: string)
  {
    |s| == 10 && '6' <= s[0] <= '9' && AllDigits(s[1..])
  }

  /** The message both forms show when a phone fails the mobile-number pattern. */
  const MobileNumberMessage := "Please enter a valid 10-digit mobile number"

  /** `/^\d{6}$/`: a six-digit postal index number. */
  predicate IsPincode(s: string)
  {
    |s| == 6 && AllDigits(s)
  }

  /**
   `/^\d*\.?\d*$/`, following the shape of the expression: a run of digits,
   then either the end or a single `.` followed by a run of digits.
   */
  predicate MatchesDecimal(s: string)
  {
    exists k | 0 <= k <= |s| ::
      && AllDigits(s[..k])
      && (AllDigits(s[k..]) || (k < |s| && s[k] == '.' && AllDigits(s[k + 1..])))
  }

  /** The decimal pattern accepts the empty string, so the weight input can be cleared. */
  lemma DecimalAcceptsEmpty()
    ensures MatchesDecimal("")
  {
    assert AllDigits(""[..0]) && AllDigits(""[0..]);
  }

  /** A mobile number is ten digits whose first digit is at least 6. */
  lemma MobileNumberIff(s: string)
    ensures IsMobileNumber(s) <==> |s| == 10 && AllDigits(s) && s[0] >= '6'
  {
    if |s| == 10 && AllDigits(s) {
      assert forall i :: 0 <= i < 9 ==> s[1..][i] == s[i + 1];
    }
  }

  /**
   The decimal pattern accepts exactly the strings made of digits and dots
   in which no two characters are dots.
   */
  lemma DecimalIff(s: string)
    ensures MatchesDecimal(s) <==>
      && (forall i :: 0 <= i < |s| ==> IsDigit(s[i]) || s[i] == '.')
      && (forall i, j :: 0 <= i < j < |s| ==> s[i] != '.' || s[j] != '.')
  {
    if MatchesDecimal(s) {
      DecimalSound(s);
    }
    if  && (forall i :: 0 <= i < |s| ==> IsDigit(s[i]) || s[i] == '.')
        && (forall i, j :: 0 <= i < j < |s| ==> s[i] != '.' || s[j] != '.')
    {
      DecimalComplete(s);
    }
  }

  lemma DecimalSound(s: string)
    requires MatchesDecimal(s)
    ensures forall i :: 0 <= i < |s| ==> IsDigit(s[i]) || s[i] == '.'
    ensures forall i, j :: 0 <= i < j < |s| ==> s[i] != '.' || s[j] != '.'
  {
    var k :| 0 <= k <= |s| && AllDigits(s[..k])
      && (AllDigits(s[k..]) || (k < |s| && s[k] == '.' && AllDigits(s[k + 1..])));
    DigitsBetween(s, 0, k);
    assert s[0..k] == s[..k];
    if AllDigits(s[k..]) {
      DigitsBetween(s, k, |s|);
      assert s[k..|s|] == s[k..];
    } else {
      DigitsBetween(s, k + 1, |s|);
      assert s[k + 1..|s|] == s[k + 1..];
    }
  }

  lemma DecimalComplete(s: string)
    requires forall i :: 0 <= i < |s| ==> IsDigit(s[i]) || s[i] == '.'
    requires forall i, j :: 0 <= i < j < |s| ==> s[i] != '.' || s[j] != '.'
    ensures MatchesDecimal(s)
  {
    if d :| 0 <= d < |s| && s[d] == '.' {
      DigitsBetween(s, 0, d);
      assert s[0..d] == s[..d];
      DigitsBetween(s, d + 1, |s|);
      assert s[d + 1..|s|] == s[d + 1..];
      assert AllDigits(s[..d]) && d < |s| && s[d] == '.' && AllDigits(s[d + 1..]);
    } else {
      DigitsBetween(s, 0, |s|);
      assert s[0..|s|] == s[..|s|];
      assert AllDigits(s[..|s|]) && AllDigits(s[|s|..]);
    }
  }
}

=== FILE: register.dfy ===
/**
 The two-step account registration wizard. Step 1 collects the basic
 information (phone, name, email and, for a collector, a business name);
 step 2 collects the address (and, for a collector, the business details);
 "Next" on step 2 submits. Each step is guarded by a role-dependent
 validator that reports the first failing check.
 */
module Register {
  import opened Common
  import opened Text
  import opened Patterns

  /** The `name` attributes of the wizard's inputs, which the change handlers use as keys. */
  datatype Field =
    | Phone | Name | Email | BusinessName | Address | City | Pincode
    | VehicleType | VehicleNumber | Experience | ServiceArea

  /** The customer form renders no business, vehicle, experience or service-area input. */
  predicate IsCustomerField(field: Field)
  {
    field.Phone? || field.Name? || field.Email? || field.Address? || field.City? || field.Pincode?
  }

  datatype CustomerDetails = CustomerDetails(
    phone: string, name: string, email: string,
    address: string, city: string, pincode: string)

  datatype CollectorDetails = CollectorDetails(
    phone: string, name: string, email: string, businessName: string,
    address: string, city: string, pincode: string,
    vehicleType: string, vehicleNumber: string, idProof: Option<File>,
    experience: string, serviceArea: string)

  const NoCustomer := CustomerDetails("", "", "", "", "", "")
  const NoCollector := CollectorDetails("", "", "", "", "", "", "", "", "", None, "", "")

  /** The value a customer input shows. */
  function CustomerValue(d: CustomerDetails, field: Field): string
    requires IsCustomerField(field)
  {
    match field
    case Phone => d.phone
    case Name => d.name
    case Email => d.email
    case Address => d.address
    case City => d.city
    case Pincode => d.pincode
  }

  /** The value a collector input shows. */
  function CollectorValue(d: CollectorDetails, field: Field): string
  {
    match field
    case Phone => d.phone
    case Name => d.name
    case Email => d.email
    case BusinessName => d.businessName
    case Address => d.address
    case City => d.city
    case Pincode => d.pincode
    case VehicleType => d.vehicleType
    case VehicleNumber => d.vehicleNumber
    case Experience => d.experience
    case ServiceArea => d.serviceArea
  }

  /** `handleCustomerChange`: the named input takes the typed value, every other input keeps its own. */
  function ChangeCustomer(d: CustomerDetails, field: Field, value: string): (r: CustomerDetails)
    requires IsCustomerField(field)
    ensures CustomerValue(r, field) == value
    ensures forall g :: IsCustomerField(g) && g != field ==> CustomerValue(r, g) == CustomerValue(d, g)
  {
    match field
    case Phone => d.(phone := value)
    case Name => d.(name := value)
    case Email => d.(email := value)
    case Address => d.(address := value)
    case City => d.(city := value)
    case Pincode => d.(pincode := value)
  }

  /** `handleCollectorChange`: as for the customer, and the ID proof is never touched. */
  function ChangeCollector(d: CollectorDetails, field: Field, value: string): (r: CollectorDetails)
    ensures CollectorValue(r, field) == value
    ensures forall g :: g != field ==> CollectorValue(r, g) == CollectorValue(d, g)
    ensures r.idProof == d.idProof
  {
    match field
    case Phone => d.(phone := value)
    case Name => d.(name := value)
    case Email => d.(email := value)
    case BusinessName => d.(businessName := value)
    case Address => d.(address := value)
    case City => d.(city := value)
    case Pincode => d.(pincode := value)
    case VehicleType => d.(vehicleType := value)
    case VehicleNumber => d.(vehicleNumber := value)
    case Experience => d.(experience := value)
    case ServiceArea => d.(serviceArea := value)
  }

  /** The wizard's state: the current step (1 or 2), the role, both records and the error banner. */
  datatype Form = Form(
    step: int, role: Role,
    customer: CustomerDetails, collector: CollectorDetails,
    error: string)

  const Start := Form(1, Customer, NoCustomer, NoCollector, "")

  /** The step is 1 or 2, and a stored ID proof never exceeds the upload limit. */
  predicate Valid(f: Form)
  {
    && 1 <= f.step <= 2
    && (f.collector.idProof.Some? ==> f.collector.idProof.value.size <= MaxUploadBytes)
  }

  /** The `role` query parameter is adopted only when it names one of the two roles. */
  function RoleFromQuery(role: Role, param: Option<string>): (r: Role)
    ensures param == Some("customer") ==> r == Customer
    ensures param == Some("collector") ==> r == Collector
    ensures r == role || param == Some(RoleName(r))
  {
    match param
    case Some(p) =>
      if p == "customer" then Customer
      else if p == "collector" then Collector
      else role
    case None => role
  }

  const NoNameMessage := "Please enter your name"
  const NoBusinessNameMessage := "Please enter your business name"
  const NoAddressMessage := "Please enter your address"
  const NoBusinessAddressMessage := "Please enter your business address"
  const NoCityMessage := "Please enter your city"
  const BadPincodeMessage := "Please enter a valid 6-digit pincode"
  const NoVehicleMessage := "Please select your vehicle type"
  const NoServiceAreaMessage := "Please enter your service area"
  const FileTooLargeMessage := "File size should be less than 5MB"

  /** The thrown message when the missing `registerCollector` is called. */
  const NoRegisterCollectorMessage := "registerCollector is not a function"

  /** `validateStep1`: `None` when the step passes, otherwise the message of the first failing check. */
  function Step1Error(f: Form): (r: Option<string>)
  {
    match f.role
    case Customer =>
      if !IsMobileNumber(f.customer.phone) then Some(MobileNumberMessage)
      else if IsBlank(f.customer.name) then Some(NoNameMessage)
      else None
    case Collector =>
      if !IsMobileNumber(f.collector.phone) then Some(MobileNumberMessage)
      else if IsBlank(f.collector.name) then Some(NoNameMessage)
      else if IsBlank(f.collector.businessName) then Some(NoBusinessNameMessage)
      else None
  }

  /** `validateStep2`: `None` when the step passes, otherwise the message of the first failing check. */
  function Step2Error(f: Form): (r: Option<string>)
  {
    match f.role
    case Customer =>
      if IsBlank(f.customer.address) then Some(NoAddressMessage)
      else if IsBlank(f.customer.city) then Some(NoCityMessage)
      else if !IsPincode(f.customer.pincode) then Some(BadPincodeMessage)
      else None
    case Collector =>
      if IsBlank(f.collector.address) then Some(NoBusinessAddressMessage)
      else if IsBlank(f.collector.city) then Some(NoCityMessage)
      else if !IsPincode(f.collector.pincode) then Some(BadPincodeMessage)
      else if f.collector.vehicleType == "" then Some(NoVehicleMessage)
      else if IsBlank(f.collector.serviceArea) then Some(NoServiceAreaMessage)
      else None
  }

  /** Some character of `s` survives `trim`. */
  predicate HasText(s: string)
  {
    exists i :: 0 <= i < |s| && !IsTrimmable(s[i])
  }

  /** The phone and name fields of the selected role. */
  function PhoneOf(f: Form): string
  {
    if f.role == Customer then f.customer.phone else f.collector.phone
  }

  function NameOf(f: Form): string
  {
    if f.role == Customer then f.customer.name else f.collector.name
  }

  /**
   Step 1 passes exactly when the phone is ten ASCII digits starting with 6
   to 9 and the name (and a collector's business name) has a visible
   character.
   */
  lemma Step1PassesIff(f: Form)
    ensures Step1Error(f).None? <==>
      && |PhoneOf(f)| == 10 && AllDigits(PhoneOf(f)) && PhoneOf(f)[0] >= '6'
      && HasText(NameOf(f))
      && (f.role == Collector ==> HasText(f.collector.businessName))
  {
    MobileNumberIff(PhoneOf(f));
    BlankIffAllTrimmable(NameOf(f));
    BlankIffAllTrimmable(f.collector.businessName);
  }

  /** The checks of step 1 report in the order phone, name, business name. */
  lemma Step1FirstFailure(f: Form)
    ensures !IsMobileNumber(PhoneOf(f)) ==> Step1Error(f) == Some(MobileNumberMessage)
    ensures IsMobileNumber(PhoneOf(f)) && !HasText(NameOf(f)) ==> Step1Error(f) == Some(NoNameMessage)
    ensures (f.role == Collector && IsMobileNumber(PhoneOf(f)) && HasText(NameOf(f))
             && !HasText(f.collector.businessName)) ==> Step1Error(f) == Some(NoBusinessNameMessage)
  {
    BlankIffAllTrimmable(NameOf(f));
    BlankIffAllTrimmable(f.collector.businessName);
  }

  /**
   Step 2 passes exactly when address and city have visible text and the
   pincode is six ASCII digits; a collector also needs a vehicle type and a
   service area.
   */
  lemma Step2PassesIff(f: Form)
    ensures Step2Error(f).None? <==>
      if f.role == Customer then
        HasText(f.customer.address) && HasText(f.customer.city)
        && |f.customer.pincode| == 6 && AllDigits(f.customer.pincode)
      else
        HasText(f.collector.address) && HasText(f.collector.city)
        && |f.collector.pincode| == 6 && AllDigits(f.collector.pincode)
        && f.collector.vehicleType != "" && HasText(f.collector.serviceArea)
  {
    BlankIffAllTrimmable(f.customer.address);
    BlankIffAllTrimmable(f.customer.city);
    BlankIffAllTrimmable(f.collector.address);
    BlankIffAllTrimmable(f.collector.city);
    BlankIffAllTrimmable(f.collector.serviceArea);
  }

  /** What the wizard posts: the record of the selected role. */
  datatype Registration = CustomerSignup(customer: CustomerDetails) | CollectorSignup(collector: CollectorDetails)

  function Applicant(f: Form): Registration
  {
    if f.role == Customer then CustomerSignup(f.customer) else CollectorSignup(f.collector)
  }

  /** The form after a handler, and the registration request it sent, if any. */
  datatype Outcome = Outcome(form: Form, request: Option<Registration>)

  /**
   `handleSubmit` as written: the collector branch calls `registerCollector`,
   which the authentication context does not provide, so it throws before
   any request and the banner shows the TypeError's message.
   */
  function SubmitAsWritten(f: Form, reply: Reply): (r: Outcome)
    ensures r.form.(error := f.error) == f
    ensures f.role == Customer ==> r.request == Some(CustomerSignup(f.customer)) && r.form.error == ReplyError(reply)
    ensures f.role == Collector ==> r.request.None? && r.form.error == NoRegisterCollectorMessage
  {
    match f.role
    case Customer => Outcome(f.(error := ReplyError(reply)), Some(CustomerSignup(f.customer)))
    case Collector => Outcome(f.(error := NoRegisterCollectorMessage), None)
  }

  /** A collector can never register through the form as written, whatever the server would answer. */
  lemma CollectorSignupNeverSent(f: Form, reply: Reply)
    requires f.role == Collector
    ensures SubmitAsWritten(f, reply).request.None?
    ensures Submit(f, reply).request == Some(CollectorSignup(f.collector))
  {
  }

  /**
   `handleSubmit` with the collector registered the way the customer is:
   the selected role's record is posted; the banner is cleared on success
   and shows the error on failure; nothing else changes.
   */
  function Submit(f: Form, reply: Reply): (r: Outcome)
    ensures r.request == Some(Applicant(f))
    ensures r.form.(error := f.error) == f
    ensures reply.Accepted? ==> r.form.error == ""
    ensures reply.Refused? ==> r.form.error == reply.message
  {
    Outcome(f.(error := ReplyError(reply)), Some(Applicant(f)))
  }

  /**
   `handleNextStep`: clear the banner; from step 1 move to step 2 when step 1
   validates; at step 2 submit when step 2 validates; otherwise stay and
   show the validator's message.
   */
  function NextStep(f: Form, reply: Reply): (r: Outcome)
    ensures r.form.role == f.role && r.form.customer == f.customer && r.form.collector == f.collector
    ensures r.form.step == if f.step == 1 && Step1Error(f).None? then 2 else f.step
    ensures r.request.Some? <==> f.step == 2 && Step2Error(f).None?
    ensures r.request.Some? ==> r.request.value == Applicant(f)
    ensures f.step == 1 ==> r.form.error == if Step1Error(f).Some? then Step1Error(f).value else ""
    ensures f.step == 2 && Step2Error(f).Some? ==> r.form.error == Step2Error(f).value
    ensures f.step == 2 && Step2Error(f).None? ==> r.form.error == ReplyError(reply)
    ensures f.step != 1 && f.step != 2 ==> r.form.error == ""
    ensures Valid(f) ==> Valid(r.form)
  {
    var cleared := f.(error := "");
    if f.step == 1 then
      match Step1Error(f)
      case None => Outcome(cleared.(step := 2), None)
      case Some(message) => Outcome(cleared.(error := message), None)
    else if f.step == 2 then
      match Step2Error(f)
      case None => Submit(cleared, reply)
      case Some(message) => Outcome(cleared.(error := message), None)
    else
      Outcome(cleared, None)
  }

  /** `handlePreviousStep`, offered only past step 1: go back one step and clear the banner. */
  function PreviousStep(f: Form): (r: Form)
    requires f.step > 1
    ensures r.step == f.step - 1 && r.step >= 1
    ensures r.error == ""
    ensures r.role == f.role && r.customer == f.customer && r.collector == f.collector
  {
    f.(step := f.step - 1, error := "")
  }

  /** Going forward from a valid step 1 and back again restores the form, banner cleared. */
  lemma NextThenPrevious(f: Form, reply: Reply)
    requires f.step == 1 && Step1Error(f).None?
    ensures NextStep(f, reply).form.step == 2
    ensures PreviousStep(NextStep(f, reply).form) == f.(error := "")
  {
  }

  /** Going back from step 2 and forward again returns to step 2 when step 1 still validates. */
  lemma PreviousThenNext(f: Form, reply: Reply)
    requires f.step == 2 && Step1Error(f).None?
    ensures NextStep(PreviousStep(f), reply).form == f.(error := "")
    ensures NextStep(PreviousStep(f), reply).request.None?
  {
    assert Step1Error(PreviousStep(f)) == Step1Error(f);
  }

  /**
   `handleFileUpload`: a present file of at most five mebibytes becomes the
   collector's ID proof; otherwise (no file, or too large) the ID proof is
   kept and the banner shows the size message.
   */
  function AttachIdProof(f: Form, file: Option<File>): (r: Form)
    ensures file.Some? && file.value.size <= MaxUploadBytes ==> r.collector.idProof == file && r.error == f.error
    ensures !(file.Some? && file.value.size <= MaxUploadBytes) ==> r.collector == f.collector && r.error == FileTooLargeMessage
    ensures r.collector.(idProof := f.collector.idProof) == f.collector
    ensures r.step == f.step && r.role == f.role && r.customer == f.customer
    ensures Valid(f) ==> Valid(r)
  {
    if file.Some? && file.value.size <= MaxUploadBytes then
      f.(collector := f.collector.(idProof := file))
    else
      f.(error := FileTooLargeMessage)
  }

  /** What the user (or the address bar) can do to the wizard. */
  datatype Event =
    | RoleInQuery(param: Option<string>)
    | PickRole(role: Role)
    | EditCustomer(field: Field, value: string)
    | EditCollector(field: Field, value: string)
    | PickIdProof(file: Option<File>)
    | Next(reply: Reply)
    | Previous

  /**
   The events the rendered page offers: the role buttons only on step 1,
   each record's inputs only while its role is selected, "Previous" only
   past step 1.
   */
  predicate Offered(f: Form, e: Event)
  {
    match e
    case PickRole(_) => f.step == 1
    case EditCustomer(field, _) => f.role == Customer && IsCustomerField(field)
    case EditCollector(_, _) => f.role == Collector
    case PickIdProof(_) => f.role == Collector && f.step == 2
    case Previous => f.step > 1
    case _ => true
  }

  function Apply(f: Form, e: Event): Outcome
    requires Offered(f, e)
  {
    match e
    case RoleInQuery(param) => Outcome(f.(role := RoleFromQuery(f.role, param)), None)
    case PickRole(role) => Outcome(f.(role := role), None)
    case EditCustomer(field, value) => Outcome(f.(customer := ChangeCustomer(f.customer, field, value)), None)
    case EditCollector(field, value) => Outcome(f.(collector := ChangeCollector(f.collector, field, value)), None)
    case PickIdProof(file) => Outcome(AttachIdProof(f, file), None)
    case Next(reply) => NextStep(f, reply)
    case Previous => Outcome(PreviousStep(f), None)
  }

  /** The wizard starts valid and every offered event keeps it valid: the step never leaves 1..2. */
  lemma ApplyKeepsValid(f: Form, e: Event)
    requires Valid(f) && Offered(f, e)
    ensures Valid(Start)
    ensures Valid(Apply(f, e).form)
    ensures Apply(f, e).request.Some? ==> e.Next? && f.step == 2
  {
  }
}

=== FILE: scrap_request.dfy ===
/**
 The scrap pickup request form: a weight typed as decimal text, a
 description, an address, optional date and instructions, and up to five
 images. Submitting posts the request and goes to the dashboard.
 */
module Scrap {
  import opened Common
  import opened Text
  import opened Patterns

  /** The inputs that share the generic `handleChange` by their `name` attribute. */
  datatype Field = Description | Address | ScheduledDate | SpecialInstructions

  datatype ScrapForm = ScrapForm(
    weight: string, description: string, images: seq<File>,
    scheduledDate: string, address: string, specialInstructions: string,
    error: string)

  const Start := ScrapForm("", "", [], "", "", "", "")

  const MaxImages: nat := 5

  const BadTypeMessage := "Only JPEG and PNG images are allowed"
  const ImageTooLargeMessage := "Image size should be less than 5MB"
  const MissingFieldsMessage := "Please fill in all required fields"
  const SubmitFailedMessage := "Failed to create scrap request"

  function FieldValue(form: ScrapForm, field: Field): string
  {
    match field
    case Description => form.description
    case Address => form.address
    case ScheduledDate => form.scheduledDate
    case SpecialInstructions => form.specialInstructions
  }

  /** `handleChange`: the named input takes the value; every other input, the weight, the images and the banner stay. */
  function ChangeField(form: ScrapForm, field: Field, value: string): (r: ScrapForm)
    ensures FieldValue(r, field) == value
    ensures forall g :: g != field ==> FieldValue(r, g) == FieldValue(form, g)
    ensures r.weight == form.weight && r.images == form.images && r.error == form.error
  {
    match field
    case Description => form.(description := value)
    case Address => form.(address := value)
    case ScheduledDate => form.(scheduledDate := value)
    case SpecialInstructions => form.(specialInstructions := value)
  }

  /**
   `handleWeightChange`: the typed text replaces the weight when it is empty
   or matches the decimal pattern; otherwise the keystroke is dropped.
   */
  function ChangeWeight(form: ScrapForm, value: string): (r: ScrapForm)
    ensures r.(weight := form.weight) == form
    ensures r.weight == value || r.weight == form.weight
    ensures MatchesDecimal(form.weight) ==> MatchesDecimal(r.weight)
  {
    DecimalAcceptsEmpty();
    if value == "" || MatchesDecimal(value) then form.(weight := value) else form
  }

  /**
   A weight edit is taken exactly when the new text is made of digits and
   dots with no two dots (or when it equals the current weight anyway).
   */
  lemma WeightAcceptedIff(form: ScrapForm, value: string)
    ensures ChangeWeight(form, value).weight == value <==>
      || value == form.weight
      || (&& (forall i :: 0 <= i < |value| ==> IsDigit(value[i]) || value[i] == '.')
          && (forall i, j :: 0 <= i < j < |value| ==> value[i] != '.' || value[j] != '.'))
  {
    DecimalIff(value);
  }

  /** The image types and the size the upload filter lets through. */
  predicate IsAcceptedImage(file: File)
  {
    file.mimeType in {"image/jpeg", "image/png", "image/jpg"} && file.size <= MaxUploadBytes
  }

  /** The upload filter's verdict on one file: `None` to keep it, else the banner it sets. */
  function Rejection(file: File): (r: Option<string>)
    ensures r.None? <==> IsAcceptedImage(file)
  {
    if file.mimeType !in {"image/jpeg", "image/png", "image/jpg"} then Some(BadTypeMessage)
    else if file.size > MaxUploadBytes then Some(ImageTooLargeMessage)
    else None
  }

  /** The files the filter keeps: exactly the accepted ones, in their original order. */
  function AcceptedImages(files: seq<File>): (r: seq<File>)
    ensures forall x :: multiset(r)[x] == if IsAcceptedImage(x) then multiset(files)[x] else 0
    ensures IsSubsequence(r, files)
    ensures |r| <= |files|
  {
    assert files != [] ==> files == [files[0]] + files[1..];
    if files == [] then []
    else if IsAcceptedImage(files[0]) then [files[0]] + AcceptedImages(files[1..])
    else AcceptedImages(files[1..])
  }

  /**
   The banner after filtering: each rejected file overwrites it, so it is
   the message for the last rejected file, or unchanged when none is.
   */
  function BannerAfterFilter(files: seq<File>, error: string): (r: string)
    ensures (forall i :: 0 <= i < |files| ==> IsAcceptedImage(files[i])) ==> r == error
    ensures r == error || r == BadTypeMessage || r == ImageTooLargeMessage
  {
    if files == [] then error
    else
      var last := files[|files| - 1];
      match Rejection(last)
      case Some(message) => message
      case None => BannerAfterFilter(files[..|files| - 1], error)
  }

  /** When some file is rejected, the banner is the message for the last rejected one. */
  lemma {:induction false} BannerIsLastRejection(files: seq<File>, error: string, i: nat)
    requires i < |files| && !IsAcceptedImage(files[i])
    requires forall j :: i < j < |files| ==> IsAcceptedImage(files[j])
    ensures BannerAfterFilter(files, error) == Rejection(files[i]).value
    decreases |files|
  {
    var n := |files| - 1;
    if i < n {
      assert IsAcceptedImage(files[n]);
      assert forall j :: i < j < n ==> files[..n][j] == files[j];
      BannerIsLastRejection(files[..n], error, i);
    }
  }

  /** `files.slice(0, end)`: a negative end counts from the back of the list. */
  function SliceTo(files: seq<File>, end: int): (r: seq<File>)
    ensures |r| <= |files| && r == files[..|r|]
    ensures end >= 0 ==> |r| == if end <= |files| then end else |files|
    ensures end < 0 ==> |r| == if -end <= |files| then |files| + end else 0
  {
    if end >= 0 then (if end <= |files| then files[..end] else files)
    else if -end <= |files| then files[..|files| + end]
    else []
  }

  /**
   `handleImageUpload`: at most `5 - |images|` of the picked files are
   considered, those passing the type and size filter are appended in their
   order, and the existing images are kept in front.
   */
  function UploadImages(form: ScrapForm, files: seq<File>): (r: ScrapForm)
    ensures |r.images| >= |form.images| && r.images[..|form.images|] == form.images
    ensures |form.images| <= MaxImages ==> |r.images| <= MaxImages
    ensures forall i :: |form.images| <= i < |r.images| ==> IsAcceptedImage(r.images[i])
    ensures IsSubsequence(r.images[|form.images|..], files[..|SliceTo(files, MaxImages - |form.images|)|])
    ensures forall x :: multiset(r.images[|form.images|..])[x] ==
              if IsAcceptedImage(x) then multiset(files[..|SliceTo(files, MaxImages - |form.images|)|])[x] else 0
    ensures r.error == BannerAfterFilter(files[..|SliceTo(files, MaxImages - |form.images|)|], form.error)
    ensures r.(images := form.images, error := form.error) == form
  {
    var considered := SliceTo(files, MaxImages - |form.images|);
    var added := AcceptedImages(considered);
    var r := form.(images := form.images + added, error := BannerAfterFilter(considered, form.error));
    assert r.images[|form.images|..] == added;
    assert considered == files[..|considered|];
    r
  }

  /** `images.filter((_, i) => i !== index)`, walking the list as the filter does. */
  function RemoveImage(images: seq<File>, index: int): (r: seq<File>)
    ensures 0 <= index < |images| ==> r == images[..index] + images[index + 1..]
    ensures !(0 <= index < |images|) ==> r == images
  {
    if images == [] then []
    else
      var n := |images| - 1;
      var front := RemoveImage(images[..n], index);
      if n != index then
        assert images[..n] + [images[n]] == images;
        assert 0 <= index < n ==> images[..n][..index] + images[..n][index + 1..] + [images[n]]
                                  == images[..index] + images[index + 1..];
        front + [images[n]]
      else
        assert images[..n][..index] == images[..index];
        front
  }

  /** Removing an image in range drops exactly that one and keeps the others in order; other indices change nothing. */
  lemma RemoveImageShape(images: seq<File>, index: int)
    ensures 0 <= index < |images| ==> |RemoveImage(images, index)| == |images| - 1
    ensures 0 <= index < |images| ==>
              forall j :: 0 <= j < |images| - 1 ==>
                RemoveImage(images, index)[j] == if j < index then images[j] else images[j + 1]
    ensures !(0 <= index < |images|) ==> RemoveImage(images, index) == images
  {
  }

  /** What is posted: the form's fields, the category id and the images. */
  datatype Request = Request(
    weight: string, description: string, categoryId: string,
    scheduledDate: string, address: string, specialInstructions: string,
    images: seq<File>)

  datatype Outcome = Outcome(form: ScrapForm, request: Option<Request>, redirect: Option<string>)

  /** The submit guard: weight, description and address must be non-empty (spaces count). */
  predicate HasRequiredFields(form: ScrapForm)
  {
    form.weight != "" && form.description != "" && form.address != ""
  }

  function RequestOf(form: ScrapForm, categoryId: string): Request
  {
    Request(form.weight, form.description, categoryId, form.scheduledDate,
            form.address, form.specialInstructions, form.images)
  }

  /**
   `handleSubmit` as written: past the guard, it calls `scrapAPI.post`,
   which the API module does not define; the TypeError carries no response,
   so the banner always falls back to the generic failure.
   */
  function SubmitAsWritten(form: ScrapForm, categoryId: Option<string>, reply: Reply): (r: Outcome)
    ensures r.request.None? && r.redirect.None?
    ensures r.form.error == if HasRequiredFields(form) then SubmitFailedMessage else MissingFieldsMessage
    ensures r.form.(error := form.error) == form
  {
    if !HasRequiredFields(form) then Outcome(form.(error := MissingFieldsMessage), None, None)
    else Outcome(form.(error := SubmitFailedMessage), None, None)
  }

  /** A complete form is never posted as written, whatever the server would answer. */
  lemma ScrapRequestNeverSent(form: ScrapForm, id: string, reply: Reply)
    requires HasRequiredFields(form)
    ensures SubmitAsWritten(form, Some(id), reply).request.None?
    ensures Submit(form, Some(id), reply).request == Some(RequestOf(form, id))
  {
  }

  /**
   `handleSubmit` with the request posted through the API client: a missing
   required field sets the banner and sends nothing; a missing category
   throws on `category.id` before sending; otherwise the form's contents are
   posted, success goes to the dashboard and failure shows the server's
   message (or the generic one when it gave none).
   */
  function Submit(form: ScrapForm, categoryId: Option<string>, reply: Reply): (r: Outcome)
    ensures r.request.Some? <==> HasRequiredFields(form) && categoryId.Some?
    ensures r.request.Some? ==> r.request.value == RequestOf(form, categoryId.value)
    ensures !HasRequiredFields(form) ==> r.form.error == MissingFieldsMessage
    ensures HasRequiredFields(form) && categoryId.None? ==> r.form.error == SubmitFailedMessage
    ensures r.redirect.Some? <==> r.request.Some? && reply.Accepted?
    ensures r.redirect.Some? ==> r.redirect.value == "/dashboard" && r.form.error == ""
    ensures r.request.Some? && reply.Refused? ==>
              r.form.error == if reply.message == "" then SubmitFailedMessage else reply.message
    ensures r.form.(error := form.error) == form
  {
    if !HasRequiredFields(form) then Outcome(form.(error := MissingFieldsMessage), None, None)
    else match categoryId
      case None => Outcome(form.(error := SubmitFailedMessage), None, None)
      case Some(id) =>
        match reply
        case Accepted => Outcome(form.(error := ""), Some(RequestOf(form, id)), Some("/dashboard"))
        case Refused(message) =>
          var banner := if message == "" then SubmitFailedMessage else message;
          Outcome(form.(error := banner), Some(RequestOf(form, id)), None)
  }

  /** At most five images, all of an accepted type and size, and a weight the decimal pattern accepts. */
  predicate Valid(form: ScrapForm)
  {
    && |form.images| <= MaxImages
    && (forall i :: 0 <= i < |form.images| ==> IsAcceptedImage(form.images[i]))
    && MatchesDecimal(form.weight)
  }

  datatype Event =
    | TypeWeight(value: string)
    | Edit(field: Field, value: string)
    | PickImages(files: seq<File>)
    | RemoveAt(index: int)
    | Send(categoryId: Option<string>, reply: Reply)

  /** The file input is disabled at five images; each remove button carries its image's index. */
  predicate Offered(form: ScrapForm, e: Event)
  {
    match e
    case PickImages(_) => |form.images| < MaxImages
    case RemoveAt(index) => 0 <= index < |form.images|
    case _ => true
  }

  function Apply(form: ScrapForm, e: Event): Outcome
    requires Offered(form, e)
  {
    match e
    case TypeWeight(value) => Outcome(ChangeWeight(form, value), None, None)
    case Edit(field, value) => Outcome(ChangeField(form, field, value), None, None)
    case PickImages(files) => Outcome(UploadImages(form, files), None, None)
    case RemoveAt(index) => Outcome(form.(images := RemoveImage(form.images, index)), None, None)
    case Send(categoryId, reply) => Submit(form, categoryId, reply)
  }

  /** The form starts valid and every offered event keeps it valid. */
  lemma ApplyKeepsValid(form: ScrapForm, e: Event)
    requires Valid(form) && Offered(form, e)
    ensures Valid(Start)
    ensures Valid(Apply(form, e).form)
  {
    assert MatchesDecimal(Start.weight) by {
      assert AllDigits(""[..0]) && AllDigits(""[0..]);
    }
    if e.PickImages? {
      var r := UploadImages(form, e.files);
      forall i | 0 <= i < |r.images|
        ensures IsAcceptedImage(r.images[i])
      {
        if i < |form.images| {
          assert r.images[i] == r.images[..|form.images|][i];
        }
      }
    }
  }
}

=== FILE: text.dfy ===
/**
 The string primitives the forms rely on, with JavaScript's meaning:
 `\d` (ASCII digits only, the regular expressions carry no `u` flag),
 `String.prototype.trim`, `replace(/\D/g, '')` and `slice(0, n)`.
 */
module Text {

  import opened Common

  predicate IsDigit(c: char)
  {
    '0' <= c <= '9'
  }

  predicate AllDigits(s: string)
  {
    forall i :: 0 <= i < |s| ==> IsDigit(s[i])
  }

  /** `AllDigits` of a slice says the same thing as a range of indices of the whole. */
  lemma DigitsBetween(s: string, lo: nat, hi: nat)
    requires lo <= hi <= |s|
    ensures AllDigits(s[lo..hi]) <==> forall i :: lo <= i < hi ==> IsDigit(s[i])
  {
    assert forall i :: lo <= i < hi ==> s[lo..hi][i - lo] == s[i];
  }

  /**
   The code points `trim` removes: ECMAScript's WhiteSpace (tab, vertical tab,
   form feed, space, no-break space, byte order mark and the Zs category) and
   LineTerminator (line feed, carriage return, U+2028, U+2029).
   */
  predicate IsTrimmable(c: char)
  {
    || c == '\t' || c == '\n' || c == '\U{000B}' || c == '\U{000C}' || c == '\r'
    || c == ' ' || c == '\U{00A0}' || c == '\U{1680}'
    || ('\U{2000}' <= c <= '\U{200A}')
    || c == '\U{2028}' || c == '\U{2029}' || c == '\U{202F}' || c == '\U{205F}'
    || c == '\U{3000}' || c == '\U{FEFF}'
  }

  /** `s` with its leading whitespace removed. */
  function TrimStart(s: string): (r: string)
    ensures |r| <= |s| && r == s[|s| - |r|..]
    ensures r == [] || !IsTrimmable(r[0])
    ensures forall i :: 0 <= i < |s| - |r| ==> IsTrimmable(s[i])
  {
    if |s| > 0 && IsTrimmable(s[0]) then TrimStart(s[1..]) else s
  }

  /** `s` with its trailing whitespace removed. */
  function TrimEnd(s: string): (r: string)
    ensures |r| <= |s| && r == s[..|r|]
    ensures r == [] || !IsTrimmable(r[|r| - 1])
    ensures forall i :: |r| <= i < |s| ==> IsTrimmable(s[i])
  {
    if |s| > 0 && IsTrimmable(s[|s| - 1]) then TrimEnd(s[..|s| - 1]) else s
  }

  /** `r` is the piece of `s` starting at `a`, and only whitespace lies outside it. */
  predicate IsTrimmedAt(s: string, a: int, r: string)
  {
    0 <= a <= |s| - |r|
    && r == s[a..a + |r|]
    && (forall i :: 0 <= i < a ==> IsTrimmable(s[i]))
    && (forall i :: a + |r| <= i < |s| ==> IsTrimmable(s[i]))
  }

  /**
   `s.trim()`: a contiguous piece of `s` that neither starts nor ends with
   whitespace, and everything cut away on either side is whitespace.
   */
  function Trim(s: string): (r: string)
    ensures |r| <= |s|
    ensures r == [] || (!IsTrimmable(r[0]) && !IsTrimmable(r[|r| - 1]))
    ensures exists a :: IsTrimmedAt(s, a, r)
  {
    TrimmedPiece(s, TrimStart(s), TrimEnd(TrimStart(s)));
    TrimEnd(TrimStart(s))
  }

  /** Cutting whitespace from the front of `s` and then from the back leaves a piece of `s`. */
  lemma TrimmedPiece(s: string, t: string, r: string)
    requires |t| <= |s| && t == s[|s| - |t|..]
    requires forall i :: 0 <= i < |s| - |t| ==> IsTrimmable(s[i])
    requires |r| <= |t| && r == t[..|r|]
    requires forall i :: |r| <= i < |t| ==> IsTrimmable(t[i])
    ensures IsTrimmedAt(s, |s| - |t|, r)
  {
    var a := |s| - |t|;
    assert r == s[a..a + |r|];
    forall i | a + |r| <= i < |s|
      ensures IsTrimmable(s[i])
    {
      assert s[i] == t[i - a];
    }
  }

  /** `!s.trim()`: the empty string is the only falsy string. */
  predicate IsBlank(s: string)
  {
    Trim(s) == ""
  }

  /** A string is blank exactly when every one of its characters is whitespace. */
  lemma BlankIffAllTrimmable(s: string)
    ensures IsBlank(s) <==> forall i :: 0 <= i < |s| ==> IsTrimmable(s[i])
  {
    var t := TrimStart(s);
    if IsBlank(s) {
      assert TrimEnd(t) == [];
      assert t == [];
    } else if forall i :: 0 <= i < |s| ==> IsTrimmable(s[i]) {
      TrimStartOfWhitespace(s);
    }
  }

  lemma {:induction false} TrimStartOfWhitespace(s: string)
    requires forall i :: 0 <= i < |s| ==> IsTrimmable(s[i])
    ensures TrimStart(s) == ""
  {
    if s != [] {
      TrimStartOfWhitespace(s[1..]);
    }
  }

  /** `s.replace(/\D/g, '')`: the digits of `s`, in order. */
  function KeepDigits(s: string): (r: string)
    ensures AllDigits(r)
    ensures |r| <= |s|
    ensures IsSubsequence(r, s)
    ensures |r| == |s| ==> r == s
  {
    if s == [] then []
    else if IsDigit(s[0]) then [s[0]] + KeepDigits(s[1..])
    else KeepDigits(s[1..])
  }

  /** Removing non-digits piece by piece is the same as removing them at once. */
  lemma {:induction false} KeepDigitsAppend(a: string, b: string)
    ensures KeepDigits(a + b) == KeepDigits(a) + KeepDigits(b)
  {
    if a != [] {
      assert (a + b)[1..] == a[1..] + b;
      KeepDigitsAppend(a[1..], b);
    } else {
      assert a + b == b;
    }
  }

  /** A string of digits has nothing to remove. */
  lemma {:induction false} KeepDigitsOfDigits(s: string)
    ensures KeepDigits(s) == s <==> AllDigits(s)
  {
    if s != [] && AllDigits(s) {
      KeepDigitsOfDigits(s[1..]);
      assert [s[0]] + s[1..] == s;
    }
  }

  /** `s.slice(0, n)` for a non-negative `n`: the first `n` characters, or all of them. */
  function Take(s: string, n: nat): (r: string)
    ensures |r| == if |s| <= n then |s| else n
    ensures r == s[..|r|]
  {
    if |s| <= n then s else s[..n]
  }
}
